=== FILE: README.md ===
# Sign-In with Ethereum tokens: a Dafny model

This project models the protocol core of a demo that carries EIP-4361
("Sign-In with Ethereum") login messages as JWT-shaped tokens.

- A browser wallet signs a login message for the site (`createJwt`).
- The server verifies a bearer token (`decodeToken`). It can also exchange a
  verified token for a server-signed one that is valid for thirty days
  (`exchangeToken`).
- The client can check either kind of token for the connected account
  (`verifyTokenOnClient`).

A token is three byte strings joined by `.`: the header JSON, the message
text and the signature. Each is encoded in base64url without padding
(section 5 of RFC 4648). This is the layout of the JWS compact
serialization (section 7.1 of RFC 7515), except that only the message text
is signed.

Modules, one per concern:

- `Wrappers`, `Binary`: `Option`, `Result` and the byte type.
- `Base64Url`: the `base64url` package's encoder. Its `toBuffer` decoder is
  modelled, for ASCII text, as Node's lenient base64 decoder. That decoder skips characters
  outside the alphabet, stops at `=`, and turns a trailing two or three
  characters into one or two bytes. Both functions are total, and the round
  trip is proved.
- `Hex`: `"0x"`-prefixed hex text and `Buffer.from(text, 'hex')`, with
  their round trip.
- `Segments`: JavaScript's `split('.')` and `join('.')`.
- `Token`: the header literal `{"alg":"ES256K","typ":"JWT"}`, the header
  check, and the three-segment layout and its decoding.
- `Siwe`: the login message record and the reading of its
  `did:account:` resources.
- `Oracles`: everything the protocol calls but does not define, as
  function-valued fields of one `Platform` record. This covers UTF-8
  conversion, `JSON.parse` of the header, the `siwe` text format, EIP-191
  `hashMessage`, EIP-55 `getAddress`, signer recovery and the EIP-1271
  `isValidSignature` call. It also holds the token layout both sides build.
- `Exchange`: the server's exchange message and token, and chains of
  exchanges.
- `Server`: `decodeToken` and the decode-then-exchange step of the
  `/exchange` route.
- `Client`: `createJwt` and `verifyTokenOnClient`.
- `Protocol`: end-to-end facts about tokens that go from wallet to server
  and back.

The two verifiers route in opposite directions:

- The server sends tokens naming its own address to signer recovery. Every
  other address goes to the contract call.
- The client sends messages naming the connected account to that account's
  contract. A message that names the account in a `did:account:` resource
  must have been signed by the server.

Both facts are proved as independence lemmas: swapping out the oracle of
the path not taken leaves the verdict unchanged.

What the code does, and the model with it:

- An exchange appends `uri`, `"did:web" + domain` and
  `"did:account:" + address`. It does not deduplicate the resources or drop
  the server's own `did:account:` entry. Refreshing a server token therefore
  appends a marker naming the server (`Exchange.RefreshNamesServer`).
- The server writes `did:web` with no colon before the domain. The client
  writes `did:web:`.
- The header has no `kid` member.
- The signature segment keeps all 65 bytes of the signer's output, recovery
  byte included.
- A token with more than three segments is accepted, and the extra segments
  are ignored.
- A segment that is not valid base64url is still decoded, leniently, rather
  than rejected.
- The server reports "No token" only for an empty token or one with fewer
  than three segments. An empty segment decodes to an empty `Buffer`, which
  JavaScript treats as true.

## Model

| member | source | states |
|---|---|---|
| Base64Url.Encode | server/index.ts:137 | encoded text is URL-safe, unpadded, and ceil(4n/3) characters long |
| Base64Url.Sextets | server/index.ts:153 | Node's decoder reads at most one sextet per character of ASCII text |
| Base64Url.DecodeSextets | server/index.ts:153 | n sextets decode to floor(3n/4) bytes; a lone trailing sextet is dropped |
| Base64Url.ToBuffer | server/index.ts:153 | on ASCII text, the package's padding and its `-`/`_` rewriting never change what Node decodes: the bytes are those of the text's alphabet characters before the first `=` |
| Base64Url.DecodeEncode | server/index.ts:152-154 | decoding the sextets of any encoding gives back the original bytes |
| Base64Url.ToBufferEncode | server/index.ts:152-154 | `toBuffer` inverts the encoder for every byte string |
| Hex.Encode | server/index.ts:126 | the signer's hex text: two lower-case digits per byte, most significant first, byte i at characters 2i and 2i+1 |
| Hex.Decode | server/index.ts:135 | on ASCII text, never more bytes than half the characters |
| Hex.DecodeReadsPairs | server/index.ts:135 | on ASCII text, `Buffer.from(text, 'hex')` reads digit pairs from the start; each byte is its pair's value, and reading stops at the first pair that is not two hex digits |
| Hex.DecodeEncode | server/index.ts:135 | `Buffer.from(hex, 'hex')` recovers the encoded bytes |
| Hex.Unprefixed | server/index.ts:135 | `slice(2)` drops the first two characters without checking them; text of at most two characters gives no bytes |
| Hex.UnprefixedPrefixed | src/utils/signing.ts:56 | the signature bytes put into a token are exactly the bytes behind the signer's `0x` text |
| Segments.Split | server/index.ts:152 | `split('.')` yields one more piece than there are dots, and no piece holds a dot |
| Segments.SplitJoin | server/index.ts:131-138 | splitting undoes joining pieces that hold no dot |
| Segments.JoinSplit | server/index.ts:152 | joining the pieces of a split gives back the text |
| Segments.SplitDot | server/index.ts:152 | a dot between two texts splits into the pieces of each |
| Token.Accepted | server/index.ts:158-161 | the only header accepted is `alg` "ES256K" with `typ` "JWT", compared case-sensitively |
| Token.Decode | server/index.ts:152-154 | one byte string per `.`-separated piece, however many pieces there are |
| Token.SplitCompact | server/index.ts:131-138 | a compact token splits into exactly its three encoded pieces |
| Token.DecodeCompact | server/index.ts:131-138 | decoding a compact token yields exactly its header, payload and signature bytes, and the token is never empty |
| Siwe.FirstAccountResource | server/index.ts:179-181 | result is the first `did:account:` entry, or absent exactly when no entry has that prefix |
| Siwe.AttributedAccount | server/index.ts:178-182 | the account is the first marker minus its prefix, or "" when there is no marker |
| Siwe.FirstAccountResourceAppend | server/index.ts:115-120 | appending to a list never changes its first account marker once it has one |
| Oracles.SameAddress | server/index.ts:170-174 | two addresses match exactly when they have equal length and differ at each position at most in the case of an ASCII letter |
| Oracles.SameAddressAsLower | server/index.ts:170-174 | a checksummed address matches its lower-case spelling, in either order |
| Oracles.Jwt | src/utils/signing.ts:48-62 | the token either side emits decodes to the header literal, the message text and the signature bytes, and is never empty |
| Exchange.ExchangeMessage | server/index.ts:110-124 | sets the new uri, domain, signer, nonce and issue time; expiry is the second clock reading plus 2,592,000,000 ms; carries statement, version, chainId, scheme, notBefore and requestId unchanged; resources are the old list followed by exactly uri, `did:web`+domain, `did:account:`+address |
| Exchange.ExchangeToken | server/index.ts:109-140 | fails exactly when the `siwe` package rejects the new message; otherwise the server token decodes to the header literal, the new message's text and the server signature's bytes |
| Exchange.WebMarkerIsNotAccountMarker | server/index.ts:118 | the appended `did:web` entry never reads as an account marker |
| Exchange.ProvenanceAttribution | server/index.ts:115-120 | among the three appended entries, the first account marker names the input's signer, unless the input uri is itself a marker |
| Exchange.ExchangeKeepsAttribution | server/index.ts:115-120 | an exchange keeps the input's first account marker first; without one, the appended marker for the input's signer becomes first |
| Exchange.ExpiryWindow | server/index.ts:121-122 | with readings in program order the token lives at least thirty days, and exactly thirty when the readings agree |
| Exchange.ExchangeChain | server/index.ts:241-248 | after a chain of exchanges the message's signer, uri and domain are those of the last exchange |
| Exchange.ChainKeepsAttribution | server/index.ts:115-120 | any number of exchanges keeps the original first account marker |
| Exchange.RefreshNamesServer | server/index.ts:115-120 | re-exchanging a server token adds a marker naming the server; nothing strips it |
| Server.DecodeToken | server/index.ts:148-157 | fails with "No token" exactly when the token is empty or has fewer than three segments; otherwise only the first three segments decide the result |
| Server.VerifySegments | server/index.ts:158-194 | success implies an accepted header and a parsed message; for the server's own address, the recovered signer matches it ignoring letter case; for any other address, `getAddress` yields the account and the contract returned exactly `0x1626ba7e` |
| Server.ForeignHeaderRejected | server/index.ts:158-161 | a header other than ES256K/JWT gives "Invalid token" |
| Server.ExtraSegmentsIgnored | server/index.ts:152-157 | appending more segments never changes the verdict |
| Server.OwnPathVerdict | server/index.ts:166-184 | on a message naming the server, success exactly when the recovered signer is the server (case-insensitively), reporting the first account marker's account; a different signer is "Invalid token" |
| Server.ContractPathVerdict | server/index.ts:185-194 | on a message naming another address, success exactly when the contract at the checksummed address returns `0x1626ba7e`, reporting that address |
| Server.OwnTokenMakesNoContractCall | server/index.ts:166-184 | for a token naming the server, the verdict does not depend on the contract oracle |
| Server.OtherTokenMakesNoRecovery | server/index.ts:185-194 | for a token naming any other address, the verdict does not depend on signer recovery |
| Server.ExchangeRoute | server/index.ts:241-249 | a decoding failure is returned unchanged; after a successful decode its only failure is the `siwe` package rejecting the exchanged message, exactly when that happens; a success is the server token `exchangeToken` issues for the decoded message; on success the new message is signed by the server with the fresh nonce for domain `VITE_APP_DOMAIN` (or "") and uri `https://` + that variable (or `https://undefined`) |
| Client.LoginMessage | src/utils/signing.ts:30-43 | domain D, uri `https://`+D, version "1", signer = account, expiry = second reading + 10,000 ms, resources exactly `did:account:`+account then `did:web:`+D |
| Client.CreateJwt | src/utils/signing.ts:25-63 | fails with one error exactly when the `siwe` package rejects the login message, and with another exactly when it accepts it and the wallet declines; otherwise the token decodes to the header literal, the login message text and the wallet signature's bytes |
| Client.ClaimsAccount | src/utils/signing.ts:219-225 | true exactly when some marker checksums to the account and every earlier marker checksums to another address; throws exactly when some marker is not an address and every earlier marker checksums to another address; false exactly when every marker checksums to another address |
| Client.VerifyTokenOnClient | src/utils/signing.ts:144-253 | a valid verdict implies three segments, an accepted header, and either the account signed the message and its contract returned the magic value, or a marker names the account and the server's address signed it |
| Client.ContractPathVerdict | src/utils/signing.ts:195-218 | for a message signed by the configured account, the verdict is valid exactly when the contract returns `0x1626ba7e`, and a failed call is flagged as a failure |
| Client.RecoveryPathVerdict | src/utils/signing.ts:219-250 | for a message signed by another address whose marker search finds the account, the verdict is valid exactly when the recovered signer is the server's address, and a failed recovery is flagged |
| Client.UnrelatedMessageRejected | src/utils/signing.ts:219-252 | a message not signed by the account whose marker search passes over every entry is `{valid: false}` |
| Client.OwnAccountMakesNoRecovery | src/utils/signing.ts:161-218 | for a message signed by the account, the verdict does not depend on signer recovery |
| Client.OtherSignerMakesNoContractCall | src/utils/signing.ts:219-252 | for a message signed by anyone else, the verdict does not depend on the contract oracle |
| Client.ForeignHeaderRejected | src/utils/signing.ts:157-160 | a parsed token with a header other than ES256K/JWT gets `{valid: false}` |
| Protocol.AttributedAccountOfMarker | server/index.ts:178-182 | stripping the marker prefix returns the account it was written for |
| Protocol.LoginMessageAttribution | src/utils/signing.ts:39-42 | a login message's first account marker names its account |
| Protocol.ClaimsFirstMarker | src/utils/signing.ts:219-225 | the client's marker search succeeds when the first marker names the checksummed account |
| Protocol.CreatedTokenOnClient | src/utils/signing.ts:161-218 | a fresh token checked by its own account is valid exactly when the contract returns the magic value; a failed call is an invalid verdict |
| Protocol.CreatedTokenOnServer | server/index.ts:185-194 | a fresh client token is accepted by the server exactly when the contract at the checksummed address returns the magic value, and the account is that address |
| Protocol.ExchangedTokenOnServer | server/index.ts:166-184 | a server token (for a message the `siwe` package accepts) whose input named user U verifies on the server with account U |
| Protocol.RefreshedTokenOnClient | src/utils/signing.ts:219-250 | after any positive number of exchanges, the client routes the token to recovery; it is valid exactly when the recovered signer is the server's address |
| Protocol.RefreshedTokenOnServer | server/index.ts:166-184 | after any positive number of exchanges, the server accepts its own signature and still reports the wallet's account |
| Protocol.RefreshKeepsAccount | server/index.ts:241-249 | refreshing a server token through `/exchange` keeps the account it is attributed to |

## Left out

- HTTP plumbing is not modelled: Fastify, CORS, routes, response shapes,
  bearer-header stripping and `listen`. The `/exchange` route appears only
  as its decode-then-exchange step.
- The client's `fetch` wrappers `exchangeToken` and `verifyTokenOnServer`
  are network I/O. The public-key fetch is too; its result (`"0x"` when the
  fetch fails) is the `serverAddress` parameter.
- Key material is not modelled: mnemonic generation and loading, and JWKS
  export. The server's signer is a `string -> string` parameter and its
  address is a parameter.
- The cryptographic and on-chain operations are `Platform` fields with no
  definition. They are secp256k1 signing and recovery, keccak256, EIP-191
  `hashMessage`, EIP-55 `getAddress` and EIP-1271 `isValidSignature`. The
  facts the end-to-end lemmas rely on are stated as per-instance `requires`.
- The EIP-4361 text format and the `SiweMessage` constructor's validation
  belong to the `siwe` package. The validation is the `Platform` field
  `validMessage`, a predicate with no definition: creation and exchange fail
  when it is false. The package's nonce generation is a parameter.
- Client.CreateJwt: the site's domain is `import.meta.env.VITE_APP_DOMAIN`,
  fixed when the client is built; it is a `string` parameter, so a build
  without the variable (which would write `undefined`) is not modelled.
- `JSON.parse` is abstract and reads only the two header members. The
  header JSON either side writes is the fixed literal.
- UTF-8 conversion between strings and `Buffer`s is abstract.
- Clocks and randomness are parameters. Timestamps are epoch milliseconds.
  ISO-8601 rendering, and `toISOString`'s error on dates out of range, belong
  to the abstract text format.
- Oracles.SameAddress: compares lower-cased text. It does not model
  `isAddressEqual` throwing when either side is not an address.
- Server.VerifySegments: errors other than "No token" and "Invalid token"
  are distinct constructors, not the library's error messages.
- Client.VerifyTokenOnClient: the `error` text of a failed call or recovery
  is reduced to a flag. A failure of `getWalletClient` itself is not
  modelled.
- Hex.Decode: reads ASCII text only. On other text Node's hex decoder reads
  the low byte of each UTF-16 unit (so `"İ0"` gives one byte, 0), while
  the model stops at the first character that is not a hex digit. The
  signers emit ASCII hex, so tokens are unaffected.
- Hex.DecodeReadsPairs: holds for ASCII text only, for the same reason.
- Base64Url.Sextets: reads ASCII text only. On other text Node's decoder
  reads the low byte of each UTF-16 unit (so `Ł` reads as `A`), while the
  model skips every character outside the alphabet.
- Base64Url.ToBuffer: holds for ASCII text only. The package's `padString`
  writes the text's UTF-8 bytes into a buffer sized by its UTF-16 length
  and places `=` by byte position, so non-ASCII text whose length is not a
  multiple of four is padded differently (`"éAB"` becomes `"éA="`). Tokens
  either side emits are ASCII, so the round trips are unaffected. The
  model also follows Node's long-standing lenient decoder. Any
  difference in newer Node releases' decoding of malformed text is not
  modelled.
- The React components, wagmi, vite and tailwind configuration are UI and
  configuration only.

=== FILE: base64url.dfy ===
/**
 * The URL-safe base64 alphabet of RFC 4648 section 5, without padding, as
 * produced by the `base64url` package, and the decoder the same package
 * exposes as `toBuffer`: it pads the text with '=' and maps the URL-safe
 * characters back to the standard ones before handing it to Node's lenient
 * base64 decoder, which skips characters outside the alphabet, stops at the
 * first '=' and turns a trailing group of two or three characters into one or
 * two bytes.
 */
module Base64Url {
  import opened Binary

  /** A 6-bit value, one character of base64 text. */
  type Sextet = v: int | 0 <= v < 64

  /** The characters the URL-safe alphabet is made of. */
  predicate UrlSafe(c: char) {
    ('A' <= c <= 'Z') || ('a' <= c <= 'z') || ('0' <= c <= '9') || c == '-' || c == '_'
  }

  /** The URL-safe character that stands for `v`. */
  function SextetChar(v: Sextet): (c: char)
    ensures UrlSafe(c)
  {
    if v < 26 then ('A' as int + v) as char
    else if v < 52 then ('a' as int + (v - 26)) as char
    else if v < 62 then ('0' as int + (v - 52)) as char
    else if v == 62 then '-'
    else '_'
  }

  /**
   * The value Node's decoder gives a character: both the standard and the
   * URL-safe alphabet are understood, and anything else (the padding '='
   * included) is -1.
   */
  function SextetValue(c: char): (v: int)
    ensures -1 <= v < 64
    ensures UrlSafe(c) ==> v >= 0
  {
    if 'A' <= c <= 'Z' then c as int - 'A' as int
    else if 'a' <= c <= 'z' then c as int - 'a' as int + 26
    else if '0' <= c <= '9' then c as int - '0' as int + 52
    else if c == '+' || c == '-' then 62
    else if c == '/' || c == '_' then 63
    else -1
  }

  lemma SextetValueOfChar(v: Sextet)
    ensures SextetValue(SextetChar(v)) == v
  {
  }

  /** Encodes bytes as unpadded URL-safe base64: three bytes become four characters. */
  function Encode(b: seq<Byte>): (s: string)
    ensures |s| == (4 * |b| + 2) / 3
    ensures forall i :: 0 <= i < |s| ==> UrlSafe(s[i])
    decreases |b|
  {
    if |b| == 0 then ""
    else if |b| == 1 then
      [SextetChar(b[0] / 4), SextetChar(b[0] % 4 * 16)]
    else if |b| == 2 then
      [SextetChar(b[0] / 4), SextetChar(b[0] % 4 * 16 + b[1] / 16), SextetChar(b[1] % 16 * 4)]
    else
      [SextetChar(b[0] / 4), SextetChar(b[0] % 4 * 16 + b[1] / 16),
       SextetChar(b[1] % 16 * 4 + b[2] / 64), SextetChar(b[2] % 64)]
      + Encode(b[3..])
  }

  /** The sextets Node's decoder reads from `s`: every alphabet character before the first '='. */
  function Sextets(s: string): (v: seq<Sextet>)
    ensures |v| <= |s|
    decreases |s|
  {
    if |s| == 0 || s[0] == '=' then []
    else if SextetValue(s[0]) < 0 then Sextets(s[1..])
    else [SextetValue(s[0])] + Sextets(s[1..])
  }

  /**
   * Node's base64 decoding of a sextet stream: four sextets give three bytes,
   * and a trailing two or three give one or two; a single trailing sextet is
   * dropped.
   */
  function DecodeSextets(v: seq<Sextet>): (b: seq<Byte>)
    ensures |b| == 3 * |v| / 4
    decreases |v|
  {
    if |v| < 2 then []
    else if |v| == 2 then [FirstByte(v[0], v[1])]
    else if |v| == 3 then [FirstByte(v[0], v[1]), SecondByte(v[1], v[2])]
    else [FirstByte(v[0], v[1]), SecondByte(v[1], v[2]), ThirdByte(v[2], v[3])] + DecodeSextets(v[4..])
  }

  /** The byte spread over the first two sextets of a group: all six bits of `a`, the top two of `b`. */
  function FirstByte(a: Sextet, b: Sextet): Byte {
    (a as int) * 4 + (b as int) / 16
  }

  /** The byte spread over the second and third sextets of a group. */
  function SecondByte(b: Sextet, c: Sextet): Byte {
    (b as int) % 16 * 16 + (c as int) / 4
  }

  /** The byte spread over the last two sextets of a group. */
  function ThirdByte(c: Sextet, d: Sextet): Byte {
    (c as int) % 4 * 64 + (d as int)
  }

  /**
   * Pads to a multiple of four characters with '='. This is the package's
   * `padString` on ASCII text; on other text that function counts UTF-16
   * units but writes UTF-8 bytes, which this model does not follow.
   */
  function Padded(s: string): string {
    if |s| % 4 == 0 then s else s + seq(4 - |s| % 4, _ => '=')
  }

  /** Maps '-' to '+' and '_' to '/', the package's return to the standard alphabet. */
  function StandardAlphabet(s: string): (t: string)
    ensures |t| == |s|
  {
    seq(|s|, i requires 0 <= i < |s| => if s[i] == '-' then '+' else if s[i] == '_' then '/' else s[i])
  }

  /**
   * `base64url.toBuffer`, total. On ASCII text the package's padding and its
   * return to the standard alphabet never change what Node decodes.
   */
  function ToBuffer(s: string): (b: seq<Byte>)
    ensures b == DecodeSextets(Sextets(s))
  {
    if |s| % 4 == 0 then
      SextetsOfStandardAlphabet(s);
      DecodeSextets(Sextets(StandardAlphabet(Padded(s))))
    else
      SextetsOfStandardAlphabet(s + seq(4 - |s| % 4, _ => '='));
      SextetsIgnorePadding(s, 4 - |s| % 4);
      DecodeSextets(Sextets(StandardAlphabet(Padded(s))))
  }

  lemma {:induction false} SextetsOfStandardAlphabet(s: string)
    ensures Sextets(StandardAlphabet(s)) == Sextets(s)
    decreases |s|
  {
    if |s| > 0 {
      assert StandardAlphabet(s)[1..] == StandardAlphabet(s[1..]);
      SextetsOfStandardAlphabet(s[1..]);
    }
  }

  lemma {:induction false} SextetsIgnorePadding(s: string, n: nat)
    ensures Sextets(s + seq(n, _ => '=')) == Sextets(s)
    decreases |s|
  {
    if |s| == 0 {
      assert s + seq(n, _ => '=') == seq(n, _ => '=');
    } else {
      assert (s + seq(n, _ => '='))[1..] == s[1..] + seq(n, _ => '=');
      SextetsIgnorePadding(s[1..], n);
    }
  }

  lemma {:induction false} SextetsAppend(x: string, y: string)
    requires forall i :: 0 <= i < |x| ==> x[i] != '='
    ensures Sextets(x + y) == Sextets(x) + Sextets(y)
    decreases |x|
  {
    if |x| == 0 {
      assert x + y == y;
    } else {
      assert (x + y)[1..] == x[1..] + y;
      SextetsAppend(x[1..], y);
    }
  }

  /** On URL-safe text Node's decoder reads every character. */
  lemma {:induction false} SextetsOfUrlSafe(s: string)
    requires forall i :: 0 <= i < |s| ==> UrlSafe(s[i])
    ensures Sextets(s) == seq(|s|, i requires 0 <= i < |s| => SextetValue(s[i]))
    decreases |s|
  {
    if |s| > 0 {
      SextetsOfUrlSafe(s[1..]);
    }
  }

  lemma {:induction false} DecodeGroup(v: seq<Sextet>, rest: seq<Sextet>)
    requires |v| == 4
    ensures DecodeSextets(v + rest)
         == [FirstByte(v[0], v[1]), SecondByte(v[1], v[2]), ThirdByte(v[2], v[3])] + DecodeSextets(rest)
  {
    assert (v + rest)[4..] == rest;
  }

  /** The arithmetic of one full group: the three bytes survive the trip through four sextets. */
  lemma GroupRoundTrip(x: Byte, y: Byte, z: Byte)
    ensures FirstByte(x / 4, x % 4 * 16 + y / 16) == x
    ensures SecondByte(x % 4 * 16 + y / 16, y % 16 * 4 + z / 64) == y
    ensures ThirdByte(y % 16 * 4 + z / 64, z % 64) == z
  {
  }

  lemma {:induction false} DecodeEncodeShort(b: seq<Byte>)
    requires |b| < 3
    ensures DecodeSextets(Sextets(Encode(b))) == b
  {
    SextetsOfUrlSafe(Encode(b));
    if |b| == 1 {
      GroupRoundTrip(b[0], 0, 0);
      SextetValueOfChar(b[0] / 4);
      SextetValueOfChar(b[0] % 4 * 16);
    } else if |b| == 2 {
      GroupRoundTrip(b[0], b[1], 0);
      SextetValueOfChar(b[0] / 4);
      SextetValueOfChar(b[0] % 4 * 16 + b[1] / 16);
      SextetValueOfChar(b[1] % 16 * 4);
    }
  }

  /** The sextets of the encoding of a long input: one full group, then the encoding of the rest. */
  lemma {:induction false} SextetsOfEncodeGroup(b: seq<Byte>)
    requires |b| >= 3
    ensures Sextets(Encode(b))
         == [b[0] / 4, b[0] % 4 * 16 + b[1] / 16, b[1] % 16 * 4 + b[2] / 64, b[2] % 64] + Sextets(Encode(b[3..]))
  {
    var v0: Sextet := b[0] / 4;
    var v1: Sextet := b[0] % 4 * 16 + b[1] / 16;
    var v2: Sextet := b[1] % 16 * 4 + b[2] / 64;
    var v3: Sextet := b[2] % 64;
    var group := [SextetChar(v0), SextetChar(v1), SextetChar(v2), SextetChar(v3)];
    assert Encode(b) == group + Encode(b[3..]);
    SextetsAppend(group, Encode(b[3..]));
    SextetsOfUrlSafe(group);
    SextetValueOfChar(v0);
    SextetValueOfChar(v1);
    SextetValueOfChar(v2);
    SextetValueOfChar(v3);
  }

  /** Decoding undoes encoding: the sextets read back from `Encode(b)` decode to `b`. */
  lemma {:induction false} DecodeEncode(b: seq<Byte>)
    ensures DecodeSextets(Sextets(Encode(b))) == b
    decreases |b|
  {
    if |b| < 3 {
      DecodeEncodeShort(b);
    } else {
      var group: seq<Sextet> := [b[0] / 4, b[0] % 4 * 16 + b[1] / 16, b[1] % 16 * 4 + b[2] / 64, b[2] % 64];
      SextetsOfEncodeGroup(b);
      DecodeGroup(group, Sextets(Encode(b[3..])));
      GroupRoundTrip(b[0], b[1], b[2]);
      DecodeEncode(b[3..]);
      assert b == [b[0], b[1], b[2]] + b[3..];
    }
  }

  /** `base64url.toBuffer` inverts the encoder: every segment is recovered byte for byte. */
  lemma ToBufferEncode(b: seq<Byte>)
    ensures ToBuffer(Encode(b)) == b
  {
    DecodeEncode(b);
  }
}

=== FILE: client.dfy ===
/**
 * The browser side: `createJwt`, which has the connected wallet sign a login
 * message for the site, and `verifyTokenOnClient`, which checks a token for
 * the connected account. The client routes the other way round from the
 * server: the connected account's own messages go to its EIP-1271 contract,
 * and a message that names the account in an account marker must have been
 * signed by the server.
 */
module Client {
  import opened Binary
  import opened Wrappers
  import opened Siwe
  import opened Oracles
  import Token
  import Hex

  /** The ways the client functions throw instead of returning a verdict. */
  datatype ClientError =
    | MissingPayload    // fewer than two segments: the message segment is undefined
    | MalformedMessage  // the siwe parser threw
    | MalformedHeader   // JSON.parse threw, or read `null`
    | NotConfigured     // no chains or connector configured
    | MissingSignature  // the selected path needs a third segment the token lacks
    | BadAddress        // getAddress threw on an account marker
    | SigningRejected   // the wallet did not sign
    | InvalidMessage    // the siwe constructor or `prepareMessage` rejected the login message

  /**
   * The object `verifyTokenOnClient` resolves to; `failed` is whether it
   * carries the `error` of a failed call or recovery.
   */
  datatype Verdict = Verdict(valid: bool, message: Option<Message>, account: Option<string>,
                             signature: Option<seq<Byte>>, failed: bool)

  /** `{ valid: false }`. */
  const Rejected: Verdict := Verdict(false, None, None, None, false)

  /** What `createJwt` returns: the message, the token and the wallet's hex signature. */
  datatype Created = Created(message: Message, jwt: string, signature: string)

  /** Ten seconds in milliseconds, the lifetime of a client token. */
  const TenSecondsMs: int := 10_000

  /**
   * The login message `createJwt` has signed for `account` on the site
   * `domain`; the two clock readings are the source's two `Date`
   * constructions and `nonce` the one the `siwe` package generates.
   */
  function LoginMessage(domain: string, account: string, chainId: int, statement: string,
                        issuedClock: Timestamp, expiryClock: Timestamp, nonce: string): (m: Message)
    ensures m.domain == domain && m.uri == "https://" + domain
    ensures m.version == "1" && m.address == account && m.chainId == chainId && m.statement == Some(statement)
    ensures m.issuedAt == issuedClock && m.expirationTime == Some(expiryClock + 10_000)
    ensures m.resources == Some(["did:account:" + account, "did:web:" + domain])
  {
    assert WebPrefix + ":" + domain == "did:web:" + domain;
    Message(
      scheme := None, domain := domain, address := account, statement := Some(statement),
      uri := "https://" + domain, version := "1", chainId := chainId, nonce := nonce,
      issuedAt := issuedClock, expirationTime := Some(expiryClock + TenSecondsMs), notBefore := None,
      requestId := None, resources := Some([AccountResource(account), WebPrefix + ":" + domain]))
  }

  /** `createJwt`: the signed login message laid out as a token. */
  function CreateJwt(p: Platform, walletSign: string -> Option<string>, domain: string, account: string,
                     chainId: int, statement: string, issuedClock: Timestamp, expiryClock: Timestamp,
                     nonce: string): (r: Result<Created, ClientError>)
    ensures r == Failure(InvalidMessage)
            <==> !p.validMessage(LoginMessage(domain, account, chainId, statement, issuedClock, expiryClock, nonce))
    ensures r == Failure(SigningRejected)
            <==> && p.validMessage(LoginMessage(domain, account, chainId, statement, issuedClock, expiryClock, nonce))
                 && walletSign(p.prepareMessage(LoginMessage(domain, account, chainId, statement,
                                                             issuedClock, expiryClock, nonce))).None?
    ensures r.Failure? ==> r.error == InvalidMessage || r.error == SigningRejected
    ensures r.Success? ==>
              && r.value.message == LoginMessage(domain, account, chainId, statement, issuedClock, expiryClock, nonce)
              && walletSign(p.prepareMessage(r.value.message)) == Some(r.value.signature)
              && Token.Decode(r.value.jwt)
                 == [p.utf8Encode(Token.HeaderJson), p.utf8Encode(p.prepareMessage(r.value.message)),
                     Hex.Unprefixed(r.value.signature)]
  {
    var message := LoginMessage(domain, account, chainId, statement, issuedClock, expiryClock, nonce);
    if !p.validMessage(message) then Failure(InvalidMessage)
    else
      var text := p.prepareMessage(message);
      match walletSign(text)
      case None => Failure(SigningRejected)
      case Some(signature) => Success(Created(message, Jwt(p, text, signature), signature))
  }

  /** The account an account marker names, as `getAddress` checksums it. */
  function MarkedAccount(getAddress: string -> Option<string>, r: string): Option<string>
    requires StartsWith(r, AccountPrefix)
  {
    getAddress(r[|AccountPrefix|..])
  }

  /** Whether `r` is an account marker that checksums to `account`: the entry `find` stops at. */
  predicate MarksAccount(getAddress: string -> Option<string>, r: string, account: string) {
    StartsWith(r, AccountPrefix) && MarkedAccount(getAddress, r) == Some(account)
  }

  /** Whether `r` is an account marker whose suffix `getAddress` rejects: the entry the search throws at. */
  predicate Unreadable(getAddress: string -> Option<string>, r: string) {
    StartsWith(r, AccountPrefix) && MarkedAccount(getAddress, r).None?
  }

  /** Whether `find` moves on past `r`: not a marker, or a marker for some other address. */
  predicate PassesOver(getAddress: string -> Option<string>, r: string, account: string) {
    StartsWith(r, AccountPrefix) ==> MarkedAccount(getAddress, r).Some? && MarkedAccount(getAddress, r) != Some(account)
  }

  /**
   * `resources.find(d => d.startsWith('did:account:') && getAddress(...) === account)`
   * read for its truth. The search stops at the first entry it does not pass
   * over: a marker naming `account` makes it true, and a marker `getAddress`
   * rejects makes it throw.
   */
  function ClaimsAccount(getAddress: string -> Option<string>, rs: seq<string>, account: string)
    : (r: Result<bool, ClientError>)
    ensures r == Success(true) <==>
              exists i :: 0 <= i < |rs| && MarksAccount(getAddress, rs[i], account)
                          && forall j :: 0 <= j < i ==> PassesOver(getAddress, rs[j], account)
    ensures r.Failure? <==>
              exists i :: 0 <= i < |rs| && Unreadable(getAddress, rs[i])
                          && forall j :: 0 <= j < i ==> PassesOver(getAddress, rs[j], account)
    ensures r == Success(false) <==> forall i :: 0 <= i < |rs| ==> PassesOver(getAddress, rs[i], account)
    ensures r.Failure? ==> r.error == BadAddress
    decreases |rs|
  {
    if |rs| == 0 then Success(false)
    else
      assert forall i :: 1 <= i < |rs| ==> rs[i] == rs[1..][i - 1];
      if !StartsWith(rs[0], AccountPrefix) then ClaimsAccount(getAddress, rs[1..], account)
      else match MarkedAccount(getAddress, rs[0])
        case None => Failure(BadAddress)
        case Some(a) => if a == account then Success(true) else ClaimsAccount(getAddress, rs[1..], account)
  }

  /**
   * `verifyTokenOnClient` for the connected `account`. `serverAddress` is the
   * address the public-key endpoint reports ("0x" when that fetch fails) and
   * `configured` whether the wallet configuration has chains and a connector.
   */
  function VerifyTokenOnClient(p: Platform, account: string, serverAddress: string, configured: bool,
                               jwt: string): (r: Result<Verdict, ClientError>)
    ensures r.Success? && r.value.valid ==>
              && |Token.Decode(jwt)| >= 3
              && r.value.account == Some(account)
              && r.value.message.Some?
              && p.parseMessage(p.utf8Decode(Token.Decode(jwt)[1])) == r.value.message
              && p.parseHeader(p.utf8Decode(Token.Decode(jwt)[0])).Some?
              && Token.Accepted(p.parseHeader(p.utf8Decode(Token.Decode(jwt)[0])).value)
    ensures r.Success? && r.value.valid ==>
              var m := r.value.message.value;
              var text := p.utf8Decode(Token.Decode(jwt)[1]);
              var signature := Token.Decode(jwt)[2];
              || (m.address == account
                  && p.isValidSignature(account, p.hashMessage(text), signature) == Some(MagicValue))
              || (m.address != account
                  && ClaimsAccount(p.getAddress, ResourceList(m.resources), account) == Success(true)
                  && p.recoverAddress(text, signature) == Some(serverAddress))
  {
    var segments := Token.Decode(jwt);
    if |segments| < 2 then Failure(MissingPayload)
    else
      var text := p.utf8Decode(segments[1]);
      match p.parseMessage(text)
      case None => Failure(MalformedMessage)
      case Some(message) =>
        match p.parseHeader(p.utf8Decode(segments[0]))
        case None => Failure(MalformedHeader)
        case Some(header) =>
          if !Token.Accepted(header) then Success(Rejected)
          else if message.address == account then
            if !configured then Failure(NotConfigured)
            else if |segments| < 3 then Failure(MissingSignature)
            else
              match p.isValidSignature(account, p.hashMessage(text), segments[2])
              case None => Success(Verdict(false, Some(message), None, None, true))
              case Some(output) =>
                if output == MagicValue then Success(Verdict(true, Some(message), Some(account), Some(segments[2]), false))
                else Success(Rejected)
          else
            match ClaimsAccount(p.getAddress, ResourceList(message.resources), account)
            case Failure(e) => Failure(e)
            case Success(claimed) =>
              if !claimed then Success(Rejected)
              else if |segments| < 3 then Failure(MissingSignature)
              else
                match p.recoverAddress(text, segments[2])
                case None => Success(Verdict(false, Some(message), None, Some(segments[2]), true))
                case Some(signer) => Success(Verdict(signer == serverAddress, Some(message), Some(account), None, false))
  }

  /** The message a client token carries, when it has a second segment that parses. */
  function PayloadMessage(p: Platform, jwt: string): Option<Message> {
    var segments := Token.Decode(jwt);
    if |segments| < 2 then None else p.parseMessage(p.utf8Decode(segments[1]))
  }

  /** A message signed by the connected account is never put to signer recovery. */
  lemma OwnAccountMakesNoRecovery(p: Platform, account: string, serverAddress: string, configured: bool,
                                  jwt: string, recoverAddress: (string, seq<Byte>) -> Option<string>)
    requires PayloadMessage(p, jwt).Some? && PayloadMessage(p, jwt).value.address == account
    ensures VerifyTokenOnClient(p.(recoverAddress := recoverAddress), account, serverAddress, configured, jwt)
         == VerifyTokenOnClient(p, account, serverAddress, configured, jwt)
  {
  }

  /** A message signed by any other address is never put to the account's contract. */
  lemma OtherSignerMakesNoContractCall(p: Platform, account: string, serverAddress: string, configured: bool,
                                       jwt: string, isValidSignature: (string, seq<Byte>, seq<Byte>) -> Option<string>)
    requires PayloadMessage(p, jwt).Some? && PayloadMessage(p, jwt).value.address != account
    ensures VerifyTokenOnClient(p.(isValidSignature := isValidSignature), account, serverAddress, configured, jwt)
         == VerifyTokenOnClient(p, account, serverAddress, configured, jwt)
  {
  }

  /** The token's three segments, its parsed message and accepted header: the state in which a path is chosen. */
  predicate Routable(p: Platform, jwt: string, message: Message) {
    var segments := Token.Decode(jwt);
    && |segments| >= 3
    && p.parseMessage(p.utf8Decode(segments[1])) == Some(message)
    && p.parseHeader(p.utf8Decode(segments[0])).Some?
    && Token.Accepted(p.parseHeader(p.utf8Decode(segments[0])).value)
  }

  /**
   * A message signed by the connected account is valid exactly when its
   * contract returns `0x1626ba7e`; a failed call is an invalid verdict.
   */
  lemma ContractPathVerdict(p: Platform, account: string, serverAddress: string, jwt: string, message: Message)
    requires Routable(p, jwt, message) && message.address == account
    ensures var segments := Token.Decode(jwt);
            var output := p.isValidSignature(account, p.hashMessage(p.utf8Decode(segments[1])), segments[2]);
            var r := VerifyTokenOnClient(p, account, serverAddress, true, jwt);
            && r.Success?
            && (r.value.valid <==> output == Some(MagicValue))
            && (output.None? ==> r.value.failed)
  {
  }

  /**
   * A message signed by another address that names the account in an
   * account marker is valid exactly when the server's address signed it; a
   * failed recovery is an invalid verdict.
   */
  lemma RecoveryPathVerdict(p: Platform, account: string, serverAddress: string, configured: bool, jwt: string,
                            message: Message)
    requires Routable(p, jwt, message) && message.address != account
    requires ClaimsAccount(p.getAddress, ResourceList(message.resources), account) == Success(true)
    ensures var segments := Token.Decode(jwt);
            var signer := p.recoverAddress(p.utf8Decode(segments[1]), segments[2]);
            var r := VerifyTokenOnClient(p, account, serverAddress, configured, jwt);
            && r.Success?
            && (r.value.valid <==> signer == Some(serverAddress))
            && (signer.None? ==> r.value.failed)
  {
  }

  /** A message neither signed by the account nor naming it is `{valid: false}` whatever its signature. */
  lemma UnrelatedMessageRejected(p: Platform, account: string, serverAddress: string, configured: bool, jwt: string,
                                 message: Message)
    requires Routable(p, jwt, message) && message.address != account
    requires ClaimsAccount(p.getAddress, ResourceList(message.resources), account) == Success(false)
    ensures VerifyTokenOnClient(p, account, serverAddress, configured, jwt) == Success(Rejected)
  {
  }

  /** A parsed token whose header is not `{alg: "ES256K", typ: "JWT"}` is rejected without any check. */
  lemma ForeignHeaderRejected(p: Platform, account: string, serverAddress: string, configured: bool, jwt: string)
    requires PayloadMessage(p, jwt).Some?
    requires p.parseHeader(p.utf8Decode(Token.Decode(jwt)[0])).Some?
    requires !Token.Accepted(p.parseHeader(p.utf8Decode(Token.Decode(jwt)[0])).value)
    ensures VerifyTokenOnClient(p, account, serverAddress, configured, jwt) == Success(Rejected)
  {
  }
}

=== FILE: exchange.dfy ===
/**
 * The server's exchange of a verified login message for a message of its
 * own: new audience, signer and nonce, a thirty-day validity, and three
 * provenance resources appended to whatever the input carried.
 */
module Exchange {
  import opened Wrappers
  import opened Siwe
  import opened Oracles
  import Token
  import Hex

  /** Thirty days in milliseconds. */
  const ThirtyDaysMs: int := 30 * 24 * 60 * 60_000

  /** The resources an exchange appends: where the input was presented, its origin, its signer. */
  function Provenance(siwe: Message): seq<string> {
    [siwe.uri, WebPrefix + siwe.domain, AccountResource(siwe.address)]
  }

  /** The claims an exchange carries over untouched. */
  predicate CarriesClaims(from: Message, to: Message) {
    && to.scheme == from.scheme
    && to.statement == from.statement
    && to.version == from.version
    && to.chainId == from.chainId
    && to.notBefore == from.notBefore
    && to.requestId == from.requestId
  }

  /**
   * The new message of `exchangeToken`: the input with audience, signer,
   * nonce and times replaced and the provenance resources appended. The
   * two clock readings are the two `Date` constructions of the source.
   */
  function ExchangeMessage(siwe: Message, uri: string, nonce: string, domain: string, address: string,
                           issuedClock: Timestamp, expiryClock: Timestamp): (r: Message)
    ensures r.uri == uri && r.domain == domain && r.address == address && r.nonce == nonce
    ensures r.issuedAt == issuedClock && r.expirationTime == Some(expiryClock + 2_592_000_000)
    ensures CarriesClaims(siwe, r)
    ensures r.resources.Some?
    ensures |ResourceList(r.resources)| == |ResourceList(siwe.resources)| + 3
    ensures ResourceList(r.resources)[..|ResourceList(siwe.resources)|] == ResourceList(siwe.resources)
    ensures ResourceList(r.resources)[|ResourceList(siwe.resources)|..]
         == [siwe.uri, "did:web" + siwe.domain, "did:account:" + siwe.address]
  {
    siwe.(uri := uri, domain := domain, address := address,
          resources := Some(ResourceList(siwe.resources) + Provenance(siwe)),
          issuedAt := issuedClock, expirationTime := Some(expiryClock + ThirtyDaysMs), nonce := nonce)
  }

  /** The server token and the message it carries. */
  datatype Exchanged = Exchanged(jwt: string, message: Message)

  /**
   * `exchangeToken`: the new message, signed with the server's key, laid out
   * as a token; `None` when the `siwe` package rejects the new message.
   */
  function ExchangeToken(p: Platform, sign: string -> string, siwe: Message, uri: string, nonce: string,
                         domain: string, address: string, issuedClock: Timestamp, expiryClock: Timestamp)
    : (r: Option<Exchanged>)
    ensures r.None? <==> !p.validMessage(ExchangeMessage(siwe, uri, nonce, domain, address, issuedClock, expiryClock))
    ensures r.Some? ==> r.value.message == ExchangeMessage(siwe, uri, nonce, domain, address, issuedClock, expiryClock)
    ensures r.Some? ==>
              Token.Decode(r.value.jwt)
              == [p.utf8Encode(Token.HeaderJson), p.utf8Encode(p.prepareMessage(r.value.message)),
                  Hex.Unprefixed(sign(p.prepareMessage(r.value.message)))]
  {
    var message := ExchangeMessage(siwe, uri, nonce, domain, address, issuedClock, expiryClock);
    if !p.validMessage(message) then None
    else
      var text := p.prepareMessage(message);
      Some(Exchanged(Jwt(p, text, sign(text)), message))
  }

  /** The origin marker an exchange appends is never taken for an account marker. */
  lemma WebMarkerIsNotAccountMarker(domain: string)
    ensures !StartsWith(WebPrefix + domain, AccountPrefix)
  {
    assert (WebPrefix + domain)[4] == 'w';
  }

  /** The first account marker among the appended provenance resources. */
  lemma ProvenanceAttribution(siwe: Message)
    ensures FirstAccountResource(Provenance(siwe))
         == if StartsWith(siwe.uri, AccountPrefix) then Some(siwe.uri) else Some(AccountResource(siwe.address))
  {
    WebMarkerIsNotAccountMarker(siwe.domain);
    var p := Provenance(siwe);
    if !StartsWith(siwe.uri, AccountPrefix) {
      assert FirstAccountResource(p) == FirstAccountResource(p[1..]);
      assert FirstAccountResource(p[1..]) == FirstAccountResource(p[1..][1..]);
      assert p[1..][1..] == [AccountResource(siwe.address)];
    }
  }

  /**
   * An exchange keeps the input's first account marker first; when the input
   * had none, the marker it appends for the input's signer becomes the first
   * (unless the input's own uri already reads as an account marker).
   */
  lemma ExchangeKeepsAttribution(siwe: Message, uri: string, nonce: string, domain: string, address: string,
                                 issuedClock: Timestamp, expiryClock: Timestamp)
    ensures FirstAccountResource(ResourceList(ExchangeMessage(siwe, uri, nonce, domain, address,
                                                              issuedClock, expiryClock).resources))
         == if FirstAccountResource(ResourceList(siwe.resources)).Some?
            then FirstAccountResource(ResourceList(siwe.resources))
            else if StartsWith(siwe.uri, AccountPrefix) then Some(siwe.uri)
            else Some(AccountResource(siwe.address))
  {
    FirstAccountResourceAppend(ResourceList(siwe.resources), Provenance(siwe));
    ProvenanceAttribution(siwe);
  }

  /**
   * With one clock (readings taken in program order on a clock that does not
   * run backwards) the server token is valid for at least thirty days from
   * its issue, and exactly thirty days when both readings agree.
   */
  lemma ExpiryWindow(siwe: Message, uri: string, nonce: string, domain: string, address: string,
                     issuedClock: Timestamp, expiryClock: Timestamp)
    requires issuedClock <= expiryClock
    ensures (var r := ExchangeMessage(siwe, uri, nonce, domain, address, issuedClock, expiryClock);
             && r.expirationTime.Some?
             && r.expirationTime.value - r.issuedAt >= 2_592_000_000
             && (issuedClock == expiryClock ==> r.expirationTime.value - r.issuedAt == 2_592_000_000))
  {
  }

  /** One server-side refresh: the arguments the `/exchange` route passes besides the message. */
  datatype Refresh = Refresh(uri: string, nonce: string, domain: string, address: string,
                             issuedClock: Timestamp, expiryClock: Timestamp)

  /** The message after a sequence of exchanges, each consuming the previous result. */
  function ExchangeChain(m: Message, steps: seq<Refresh>): (r: Message)
    ensures |steps| > 0 ==> r.address == steps[|steps| - 1].address
    ensures |steps| > 0 ==> r.uri == steps[|steps| - 1].uri && r.domain == steps[|steps| - 1].domain
    decreases |steps|
  {
    if |steps| == 0 then m
    else
      var s := steps[0];
      ExchangeChain(ExchangeMessage(m, s.uri, s.nonce, s.domain, s.address, s.issuedClock, s.expiryClock), steps[1..])
  }

  /** Any number of exchanges keeps the first account marker of the original message. */
  lemma {:induction false} ChainKeepsAttribution(m: Message, steps: seq<Refresh>, marker: string)
    requires FirstAccountResource(ResourceList(m.resources)) == Some(marker)
    ensures FirstAccountResource(ResourceList(ExchangeChain(m, steps).resources)) == Some(marker)
    decreases |steps|
  {
    if |steps| > 0 {
      var s := steps[0];
      var next := ExchangeMessage(m, s.uri, s.nonce, s.domain, s.address, s.issuedClock, s.expiryClock);
      ExchangeKeepsAttribution(m, s.uri, s.nonce, s.domain, s.address, s.issuedClock, s.expiryClock);
      ChainKeepsAttribution(next, steps[1..], marker);
    }
  }

  /**
   * Exchanging a token the server itself issued appends a marker naming the
   * server: nothing strips the server's own account from the resources.
   */
  lemma RefreshNamesServer(siwe: Message, uri: string, nonce: string, domain: string, serverAddress: string,
                           issuedClock: Timestamp, expiryClock: Timestamp)
    requires siwe.address == serverAddress
    ensures AccountResource(serverAddress)
            in ResourceList(ExchangeMessage(siwe, uri, nonce, domain, serverAddress, issuedClock, expiryClock).resources)
  {
    var r := ExchangeMessage(siwe, uri, nonce, domain, serverAddress, issuedClock, expiryClock);
    var n := |ResourceList(siwe.resources)|;
    assert ResourceList(r.resources)[n + 2] == AccountResource(serverAddress);
  }
}

=== FILE: hex.dfy ===
/**
 * Hexadecimal text as the signing libraries return it ("0x" followed by two
 * lower-case digits per byte) and Node's `Buffer.from(text, 'hex')`, which
 * reads digit pairs of either case and stops at the first pair that is not
 * hexadecimal, dropping an odd trailing digit. The decoder is modelled on
 * ASCII text, which is all the signers produce.
 */
module Hex {
  import opened Binary

  /** The lower-case digit for a 4-bit value. */
  function Digit(v: int): (c: char)
    requires 0 <= v < 16
    ensures DigitValue(c) == v
  {
    if v < 10 then ('0' as int + v) as char else ('a' as int + (v - 10)) as char
  }

  /** The value of a hexadecimal digit of either case, or -1. */
  function DigitValue(c: char): (v: int)
    ensures -1 <= v < 16
  {
    if '0' <= c <= '9' then c as int - '0' as int
    else if 'a' <= c <= 'f' then c as int - 'a' as int + 10
    else if 'A' <= c <= 'F' then c as int - 'A' as int + 10
    else -1
  }

  /** Two lower-case digits per byte, most significant first. */
  function Encode(b: seq<Byte>): (s: string)
    ensures |s| == 2 * |b|
    ensures forall i :: 0 <= i < |b| ==> s[2 * i] == Digit(b[i] / 16) && s[2 * i + 1] == Digit(b[i] % 16)
    decreases |b|
  {
    if |b| == 0 then ""
    else
      var rest := Encode(b[1..]);
      assert forall i :: 1 <= i < |b| ==> b[i] == b[1..][i - 1];
      [Digit(b[0] / 16), Digit(b[0] % 16)] + rest
  }

  /** `Buffer.from(s, 'hex')` on ASCII text; total. */
  function Decode(s: string): (b: seq<Byte>)
    ensures |b| <= |s| / 2
    decreases |s|
  {
    if |s| < 2 || DigitValue(s[0]) < 0 || DigitValue(s[1]) < 0 then []
    else [DigitValue(s[0]) * 16 + DigitValue(s[1])] + Decode(s[2..])
  }

  /**
   * `Buffer.from(s, 'hex')` reads digit pairs from the start and stops at the
   * first pair that is not two hexadecimal digits (or at a lone last digit):
   * every byte is the value of its pair, and the pair after the last byte,
   * if the text has one, is not hexadecimal.
   */
  lemma {:induction false} DecodeReadsPairs(s: string)
    ensures forall i :: 0 <= i < |Decode(s)| ==>
              DigitValue(s[2 * i]) >= 0 && DigitValue(s[2 * i + 1]) >= 0
              && Decode(s)[i] == DigitValue(s[2 * i]) * 16 + DigitValue(s[2 * i + 1])
    ensures |Decode(s)| < |s| / 2 ==> DigitValue(s[2 * |Decode(s)|]) < 0 || DigitValue(s[2 * |Decode(s)| + 1]) < 0
    decreases |s|
  {
    if |s| >= 2 && DigitValue(s[0]) >= 0 && DigitValue(s[1]) >= 0 {
      var t := s[2..];
      DecodeReadsPairs(t);
      var rest := Decode(t);
      var b := Decode(s);
      assert b == [DigitValue(s[0]) * 16 + DigitValue(s[1])] + rest;
      forall i | 1 <= i < |b|
        ensures DigitValue(s[2 * i]) >= 0 && DigitValue(s[2 * i + 1]) >= 0
        ensures b[i] == DigitValue(s[2 * i]) * 16 + DigitValue(s[2 * i + 1])
      {
        assert b[i] == rest[i - 1];
        assert s[2 * i] == t[2 * (i - 1)] && s[2 * i + 1] == t[2 * (i - 1) + 1];
      }
      if |b| < |s| / 2 {
        assert s[2 * |b|] == t[2 * |rest|] && s[2 * |b| + 1] == t[2 * |rest| + 1];
      }
    }
  }

  /** Reading the digits back gives the bytes that were written. */
  lemma DecodeEncode(b: seq<Byte>)
    ensures Decode(Encode(b)) == b
  {
    var s := Encode(b);
    var d := Decode(s);
    DecodeReadsPairs(s);
    forall i | 0 <= i < |b|
      ensures DigitValue(s[2 * i]) >= 0 && DigitValue(s[2 * i + 1]) >= 0
    {
      assert DigitValue(s[2 * i]) == b[i] / 16;
      assert DigitValue(s[2 * i + 1]) == b[i] % 16;
    }
    assert |d| == |b|;
    forall i | 0 <= i < |b|
      ensures d[i] == b[i]
    {
      assert DigitValue(s[2 * i]) == b[i] / 16;
      assert DigitValue(s[2 * i + 1]) == b[i] % 16;
    }
  }

  /** The "0x"-prefixed text `hexlify` and `toHex` produce for a byte string. */
  function Prefixed(b: seq<Byte>): string {
    "0x" + Encode(b)
  }

  /** `Buffer.from(signature.slice(2), 'hex')`: the bytes behind a "0x"-prefixed signature. */
  function Unprefixed(s: string): (b: seq<Byte>)
    ensures |s| <= 2 ==> b == []
    ensures |s| > 2 ==> b == Decode(s[2..])
  {
    if |s| < 2 then Decode("") else Decode(s[2..])
  }

  /** Signature text from a signer and the bytes put into the token agree. */
  lemma UnprefixedPrefixed(b: seq<Byte>)
    ensures Unprefixed(Prefixed(b)) == b
  {
    assert Prefixed(b)[2..] == Encode(b);
    DecodeEncode(b);
  }
}

=== FILE: oracles.dfy ===
/**
 * The library and network operations the protocol calls but does not
 * define, gathered as function-valued fields so that every protocol step is
 * a pure function of them: UTF-8 text conversion, `JSON.parse` of the
 * header, the EIP-4361 text format of the `siwe` package, EIP-191
 * `hashMessage`, EIP-55 `getAddress`, secp256k1 signer recovery, and the
 * read-only EIP-1271 `isValidSignature` call on a contract account.
 */
module Oracles {
  import opened Binary
  import opened Wrappers
  import opened Siwe
  import opened Token
  import Hex

  datatype Platform = Platform(
    /** `Buffer.from(text)`. */
    utf8Encode: string -> seq<Byte>,
    /** `buffer.toString()`. */
    utf8Decode: seq<Byte> -> string,
    /** `JSON.parse(text)` read as a header; `None` when it throws or yields `null`. */
    parseHeader: string -> Option<Header>,
    /** `SiweMessage.prepareMessage()`: the text that is signed. */
    prepareMessage: Message -> string,
    /**
     * Whether `new SiweMessage({...})` and `prepareMessage()` accept a
     * message record: the package's field validation (a non-empty domain,
     * an address, ...). The source throws when it is false.
     */
    validMessage: Message -> bool,
    /** `new SiweMessage(text)`; `None` when the text does not parse. */
    parseMessage: string -> Option<Message>,
    /** EIP-191 `hashMessage`. */
    hashMessage: string -> seq<Byte>,
    /** EIP-55 `getAddress`; `None` when the text is not an address. */
    getAddress: string -> Option<string>,
    /** The address that signed a text with a signature; `None` when recovery throws. */
    recoverAddress: (string, seq<Byte>) -> Option<string>,
    /** `isValidSignature(hash, signature)` on the contract at an address; `None` when the call fails. */
    isValidSignature: (string, seq<Byte>, seq<Byte>) -> Option<string>)

  /** The EIP-1271 value a contract returns for a signature it accepts. */
  const MagicValue: string := "0x1626ba7e"

  /** ASCII lower case, the normalisation `isAddressEqual` compares under. */
  function Lower(s: string): (t: string)
    ensures |t| == |s|
    ensures forall i :: 0 <= i < |s| ==>
              if 'A' <= s[i] <= 'Z' then t[i] as int == s[i] as int + 32 else t[i] == s[i]
  {
    seq(|s|, i requires 0 <= i < |s| => if 'A' <= s[i] <= 'Z' then (s[i] as int + 32) as char else s[i])
  }

  /** Whether two characters are equal or one is the other's ASCII capital. */
  predicate CaseVariant(x: char, y: char) {
    || x == y
    || ('a' <= x <= 'z' && y as int == x as int - 32)
    || ('A' <= x <= 'Z' && y as int == x as int + 32)
  }

  /**
   * Address equality regardless of checksum capitalisation: two texts match
   * exactly when they have the same length and differ, position by
   * position, at most in the case of an ASCII letter.
   */
  predicate SameAddress(a: string, b: string)
    ensures SameAddress(a, b) <==> |a| == |b| && forall i :: 0 <= i < |a| ==> CaseVariant(a[i], b[i])
    ensures a == b ==> SameAddress(a, b)
    ensures SameAddress(a, b) ==> |a| == |b|
    ensures SameAddress(a, b) ==>
              forall i :: 0 <= i < |a| && 'a' <= a[i] <= 'z' ==> b[i] == a[i] || b[i] as int == a[i] as int - 32
  {
    var same := Lower(a) == Lower(b);
    assert same ==> forall i :: 0 <= i < |a| ==> Lower(a)[i] == Lower(b)[i];
    assert (|a| == |b| && forall i :: 0 <= i < |a| ==> CaseVariant(a[i], b[i])) ==>
             forall i :: 0 <= i < |a| ==> Lower(a)[i] == Lower(b)[i];
    same
  }

  /** A checksummed address matches its lower-case spelling, in either order. */
  lemma SameAddressAsLower(a: string)
    ensures SameAddress(a, Lower(a)) && SameAddress(Lower(a), a)
  {
    var t := Lower(a);
    assert forall i :: 0 <= i < |a| ==> CaseVariant(a[i], t[i]) && CaseVariant(t[i], a[i]);
  }

  /**
   * The token both sides emit for a signed text: the fixed header, the text
   * and the signature bytes behind the signer's "0x"-prefixed hex, recovery
   * byte included. Its segments decode back to exactly those three.
   */
  function Jwt(p: Platform, text: string, signature: string): (jwt: string)
    ensures Token.Decode(jwt) == [p.utf8Encode(HeaderJson), p.utf8Encode(text), Hex.Unprefixed(signature)]
    ensures jwt != ""
  {
    DecodeCompact(p.utf8Encode(HeaderJson), p.utf8Encode(text), Hex.Unprefixed(signature));
    Compact(p.utf8Encode(HeaderJson), p.utf8Encode(text), Hex.Unprefixed(signature))
  }

  /**
   * The facts about the libraries a reader of `m`'s token relies on: the
   * text survives UTF-8, the `siwe` parser gives `m` back, and `JSON.parse`
   * reads the header members that were written.
   */
  predicate Faithful(p: Platform, m: Message) {
    var text := p.prepareMessage(m);
    && p.utf8Decode(p.utf8Encode(text)) == text
    && p.parseMessage(text) == Some(m)
    && p.parseHeader(p.utf8Decode(p.utf8Encode(HeaderJson))) == Some(Header(Some(Alg), Some(Typ)))
  }
}

=== FILE: protocol.dfy ===
/**
 * The protocol end to end: a token the wallet signs, the server tokens the
 * exchange issues from it, and what each verifier concludes about them.
 */
module Protocol {
  import opened Wrappers
  import opened Siwe
  import opened Oracles
  import opened Exchange
  import opened Server
  import opened Client
  import Token
  import Hex

  /** Stripping the marker prefix gives back the account it was written for. */
  lemma AttributedAccountOfMarker(resources: Option<seq<string>>, account: string)
    requires FirstAccountResource(ResourceList(resources)) == Some(AccountResource(account))
    ensures AttributedAccount(resources) == account
  {
    assert (AccountPrefix + account)[|AccountPrefix|..] == account;
  }

  /** A login message names its account in its first account marker. */
  lemma LoginMessageAttribution(domain: string, account: string, chainId: int, statement: string,
                                issuedClock: Timestamp, expiryClock: Timestamp, nonce: string)
    ensures FirstAccountResource(ResourceList(LoginMessage(domain, account, chainId, statement, issuedClock,
                                                           expiryClock, nonce).resources))
         == Some(AccountResource(account))
  {
  }

  /**
   * The client's marker search succeeds on a list whose first account marker
   * names the account in checksummed form: no earlier entry is a marker, so
   * `getAddress` is never asked about anything else.
   */
  lemma {:induction false} ClaimsFirstMarker(p: Platform, rs: seq<string>, account: string)
    requires FirstAccountResource(rs) == Some(AccountResource(account))
    requires p.getAddress(account) == Some(account)
    ensures ClaimsAccount(p.getAddress, rs, account) == Success(true)
    decreases |rs|
  {
    if StartsWith(rs[0], AccountPrefix) {
      assert rs[0] == AccountResource(account);
      assert rs[0][|AccountPrefix|..] == account;
    } else {
      ClaimsFirstMarker(p, rs[1..], account);
    }
  }

  /**
   * The client verifying its own fresh token takes the contract path: the
   * verdict is valid exactly when the account's contract returns the magic
   * value, and a failed call is an invalid verdict, not an error.
   */
  lemma CreatedTokenOnClient(p: Platform, walletSign: string -> Option<string>, domain: string, account: string,
                             chainId: int, statement: string, issuedClock: Timestamp, expiryClock: Timestamp,
                             nonce: string, serverAddress: string)
    requires p.validMessage(LoginMessage(domain, account, chainId, statement, issuedClock, expiryClock, nonce))
    requires walletSign(p.prepareMessage(LoginMessage(domain, account, chainId, statement, issuedClock, expiryClock,
                                                      nonce))).Some?
    requires Faithful(p, LoginMessage(domain, account, chainId, statement, issuedClock, expiryClock, nonce))
    ensures var created := CreateJwt(p, walletSign, domain, account, chainId, statement, issuedClock,
                                     expiryClock, nonce).value;
            var text := p.prepareMessage(created.message);
            var signature := Hex.Unprefixed(created.signature);
            var r := VerifyTokenOnClient(p, account, serverAddress, true, created.jwt);
            && r.Success?
            && (r.value.valid <==> p.isValidSignature(account, p.hashMessage(text), signature) == Some(MagicValue))
            && (p.isValidSignature(account, p.hashMessage(text), signature).None? ==> r.value.failed)
  {
    var m := LoginMessage(domain, account, chainId, statement, issuedClock, expiryClock, nonce);
    var created := CreateJwt(p, walletSign, domain, account, chainId, statement, issuedClock, expiryClock, nonce).value;
    var text := p.prepareMessage(m);
    assert created.jwt == Jwt(p, text, created.signature);
    assert p.utf8Decode(Token.Decode(created.jwt)[1]) == text;
    assert Routable(p, created.jwt, m);
    Client.ContractPathVerdict(p, account, serverAddress, created.jwt, m);
  }

  /**
   * The server verifying a fresh client token (one not naming the server)
   * takes the contract path at the checksummed address and reports that
   * address as the account.
   */
  lemma CreatedTokenOnServer(p: Platform, walletSign: string -> Option<string>, domain: string, account: string,
                             chainId: int, statement: string, issuedClock: Timestamp, expiryClock: Timestamp,
                             nonce: string, serverAddress: string)
    requires p.validMessage(LoginMessage(domain, account, chainId, statement, issuedClock, expiryClock, nonce))
    requires walletSign(p.prepareMessage(LoginMessage(domain, account, chainId, statement, issuedClock, expiryClock,
                                                      nonce))).Some?
    requires Faithful(p, LoginMessage(domain, account, chainId, statement, issuedClock, expiryClock, nonce))
    requires account != serverAddress
    ensures var created := CreateJwt(p, walletSign, domain, account, chainId, statement, issuedClock,
                                     expiryClock, nonce).value;
            var text := p.prepareMessage(created.message);
            var signature := Hex.Unprefixed(created.signature);
            var r := DecodeToken(p, serverAddress, created.jwt);
            && (r.Success? <==>
                  p.getAddress(account).Some?
                  && p.isValidSignature(p.getAddress(account).value, p.hashMessage(text), signature) == Some(MagicValue))
            && (r.Success? ==> r.value == Decoded(created.message, p.getAddress(account).value))
  {
    var created := CreateJwt(p, walletSign, domain, account, chainId, statement, issuedClock, expiryClock, nonce).value;
  }

  /**
   * A server token verifies on the server, which reports the account of its
   * first account marker: the end user, never the server, whenever the
   * exchanged message carried the user's marker.
   */
  lemma ExchangedTokenOnServer(p: Platform, sign: string -> string, siwe: Message, uri: string, nonce: string,
                               domain: string, serverAddress: string, issuedClock: Timestamp,
                               expiryClock: Timestamp, user: string)
    requires var m := ExchangeMessage(siwe, uri, nonce, domain, serverAddress, issuedClock, expiryClock);
             && p.validMessage(m)
             && Faithful(p, m)
             && p.recoverAddress(p.prepareMessage(m), Hex.Unprefixed(sign(p.prepareMessage(m)))).Some?
             && SameAddress(p.recoverAddress(p.prepareMessage(m), Hex.Unprefixed(sign(p.prepareMessage(m)))).value,
                            serverAddress)
    requires FirstAccountResource(ResourceList(siwe.resources)) == Some(AccountResource(user))
    ensures var r := ExchangeToken(p, sign, siwe, uri, nonce, domain, serverAddress, issuedClock, expiryClock);
            r.Some? && DecodeToken(p, serverAddress, r.value.jwt) == Success(Decoded(r.value.message, user))
  {
    var r := ExchangeToken(p, sign, siwe, uri, nonce, domain, serverAddress, issuedClock, expiryClock).value;
    ExchangeKeepsAttribution(siwe, uri, nonce, domain, serverAddress, issuedClock, expiryClock);
    AttributedAccountOfMarker(r.message.resources, user);
  }

  /**
   * After any positive number of exchanges of a wallet-signed login message,
   * the last server token still satisfies the client's marker condition for
   * the original account, so the client takes the recovery path: the verdict
   * is valid exactly when the server's address signed the text.
   */
  lemma RefreshedTokenOnClient(p: Platform, domain: string, account: string, chainId: int, statement: string,
                               issuedClock: Timestamp, expiryClock: Timestamp, nonce: string,
                               steps: seq<Refresh>, serverAddress: string, configured: bool,
                               signature: string, signer: string)
    requires |steps| > 0 && steps[|steps| - 1].address == serverAddress && serverAddress != account
    requires p.getAddress(account) == Some(account)
    requires var m := ExchangeChain(LoginMessage(domain, account, chainId, statement, issuedClock, expiryClock, nonce),
                                    steps);
             && Faithful(p, m)
             && p.recoverAddress(p.prepareMessage(m), Hex.Unprefixed(signature)) == Some(signer)
    ensures var m := ExchangeChain(LoginMessage(domain, account, chainId, statement, issuedClock, expiryClock, nonce),
                                   steps);
            var verdict := Verdict(signer == serverAddress, Some(m), Some(account), None, false);
            VerifyTokenOnClient(p, account, serverAddress, configured, Jwt(p, p.prepareMessage(m), signature))
              == Success(verdict)
  {
    var m0 := LoginMessage(domain, account, chainId, statement, issuedClock, expiryClock, nonce);
    var m := ExchangeChain(m0, steps);
    var text := p.prepareMessage(m);
    LoginMessageAttribution(domain, account, chainId, statement, issuedClock, expiryClock, nonce);
    ChainKeepsAttribution(m0, steps, AccountResource(account));
    ClaimsFirstMarker(p, ResourceList(m.resources), account);
    var segments := Token.Decode(Jwt(p, text, signature));
    assert p.utf8Decode(segments[1]) == text;
    assert p.parseMessage(text) == Some(m);
    assert m.address != account;
    assert Token.Accepted(p.parseHeader(p.utf8Decode(segments[0])).value);
  }

  /**
   * The same refreshed token on the server: it verifies when the server
   * signed it, and its account is still the wallet's account.
   */
  lemma RefreshedTokenOnServer(p: Platform, domain: string, account: string, chainId: int, statement: string,
                               issuedClock: Timestamp, expiryClock: Timestamp, nonce: string,
                               steps: seq<Refresh>, serverAddress: string, signature: string)
    requires |steps| > 0 && steps[|steps| - 1].address == serverAddress
    requires var m := ExchangeChain(LoginMessage(domain, account, chainId, statement, issuedClock, expiryClock, nonce),
                                    steps);
             && Faithful(p, m)
             && p.recoverAddress(p.prepareMessage(m), Hex.Unprefixed(signature)) == Some(serverAddress)
    ensures var m := ExchangeChain(LoginMessage(domain, account, chainId, statement, issuedClock, expiryClock, nonce),
                                   steps);
            DecodeToken(p, serverAddress, Jwt(p, p.prepareMessage(m), signature)) == Success(Decoded(m, account))
  {
    var m0 := LoginMessage(domain, account, chainId, statement, issuedClock, expiryClock, nonce);
    var m := ExchangeChain(m0, steps);
    LoginMessageAttribution(domain, account, chainId, statement, issuedClock, expiryClock, nonce);
    ChainKeepsAttribution(m0, steps, AccountResource(account));
    AttributedAccountOfMarker(m.resources, account);
  }

  /**
   * The `/exchange` route refreshing a server token: the new token is
   * attributed to the same account the presented one was.
   */
  lemma RefreshKeepsAccount(p: Platform, sign: string -> string, serverAddress: string, appDomain: Option<string>,
                            nonce: string, issuedClock: Timestamp, expiryClock: Timestamp, token: string,
                            message: Message, user: string)
    requires DecodeToken(p, serverAddress, token) == Success(Decoded(message, user))
    requires message.address == serverAddress
    requires FirstAccountResource(ResourceList(message.resources)).Some?
    requires p.validMessage(ExchangeMessage(message, SiteUri(appDomain), nonce, SiteDomain(appDomain), serverAddress,
                                            issuedClock, expiryClock))
    ensures var r := ExchangeRoute(p, sign, serverAddress, appDomain, nonce, issuedClock, expiryClock, token);
            r.Success? && AttributedAccount(r.value.message.resources) == user
  {
    var marker := FirstAccountResource(ResourceList(message.resources)).value;
    assert marker == AccountPrefix + user;
    ExchangeKeepsAttribution(message, SiteUri(appDomain), nonce, SiteDomain(appDomain), serverAddress,
                             issuedClock, expiryClock);
    AttributedAccountOfMarker(
      ExchangeMessage(message, SiteUri(appDomain), nonce, SiteDomain(appDomain), serverAddress,
                      issuedClock, expiryClock).resources, user);
  }
}

=== FILE: segments.dfy ===
/**
 * JavaScript's `split('.')` and `join('.')` on strings, the framing of the
 * three-segment compact token.
 */
module Segments {

  /** `s.split('.')`: the pieces between the dots; always at least one, and none holds a dot. */
  function Split(s: string): (parts: seq<string>)
    ensures |parts| == 1 + multiset(s)['.']
    ensures forall i :: 0 <= i < |parts| ==> '.' !in parts[i]
    decreases |s|
  {
    if |s| == 0 then [""]
    else
      var rest := Split(s[1..]);
      assert s == [s[0]] + s[1..];
      if s[0] == '.' then [""] + rest
      else [[s[0]] + rest[0]] + rest[1..]
  }

  /** `parts.join('.')`. */
  function Join(parts: seq<string>): string
    decreases |parts|
  {
    if |parts| == 0 then ""
    else if |parts| == 1 then parts[0]
    else parts[0] + "." + Join(parts[1..])
  }

  /** Splitting `p + "." + t` cuts at the first dot when `p` has none. */
  lemma {:induction false} SplitAtFirstDot(p: string, t: string)
    requires '.' !in p
    ensures Split(p + "." + t) == [p] + Split(t)
    decreases |p|
  {
    if |p| == 0 {
      assert p + "." + t == ['.'] + t;
      assert (['.'] + t)[1..] == t;
    } else {
      assert (p + "." + t)[1..] == p[1..] + "." + t;
      SplitAtFirstDot(p[1..], t);
      assert [p[0]] + p[1..] == p;
    }
  }

  lemma {:induction false} SplitWithoutDot(p: string)
    requires '.' !in p
    ensures Split(p) == [p]
    decreases |p|
  {
    if |p| > 0 {
      SplitWithoutDot(p[1..]);
      assert [p[0]] + p[1..] == p;
    }
  }

  /** Splitting undoes joining pieces that hold no dot. */
  lemma {:induction false} SplitJoin(parts: seq<string>)
    requires |parts| >= 1
    requires forall i :: 0 <= i < |parts| ==> '.' !in parts[i]
    ensures Split(Join(parts)) == parts
    decreases |parts|
  {
    if |parts| == 1 {
      SplitWithoutDot(parts[0]);
    } else {
      SplitAtFirstDot(parts[0], Join(parts[1..]));
      SplitJoin(parts[1..]);
      assert [parts[0]] + parts[1..] == parts;
    }
  }

  /** Joining undoes splitting: no character of the text is lost or added. */
  lemma {:induction false} JoinSplit(s: string)
    ensures Join(Split(s)) == s
    decreases |s|
  {
    if |s| > 0 {
      JoinSplit(s[1..]);
      var rest := Split(s[1..]);
      if s[0] == '.' {
        assert Join([""] + rest) == "" + "." + Join(rest);
        assert s == "." + s[1..];
      } else if |rest| == 1 {
        assert s == [s[0]] + s[1..];
      } else {
        assert ([[s[0]] + rest[0]] + rest[1..])[1..] == rest[1..];
        assert Join(rest) == rest[0] + "." + Join(rest[1..]);
        assert s == [s[0]] + s[1..];
      }
    }
  }

  /** A dot between two texts separates their pieces. */
  lemma {:induction false} SplitDot(x: string, y: string)
    ensures Split(x + "." + y) == Split(x) + Split(y)
    decreases |x|
  {
    if |x| == 0 {
      assert x + "." + y == "." + y;
      assert ("." + y)[1..] == y;
    } else {
      assert (x + "." + y)[1..] == x[1..] + "." + y;
      SplitDot(x[1..], y);
    }
  }
}

=== FILE: server.dfy ===
/**
 * The server's reading of a bearer token (`decodeToken`) and the decode-then-
 * exchange step of its `/exchange` route. Tokens whose message names the
 * server's own address are checked by signer recovery; every other address
 * is asked, through EIP-1271, whether it accepts the signature.
 */
module Server {
  import opened Binary
  import opened Wrappers
  import opened Siwe
  import opened Oracles
  import opened Exchange
  import Token
  import Segments

  /** The ways `decodeToken` throws; the first two carry the source's own messages. */
  datatype ServerError =
    | NoToken           // "No token"
    | InvalidToken      // "Invalid token"
    | MalformedHeader   // JSON.parse threw, or read `null`
    | MalformedMessage  // the siwe parser threw
    | RecoveryFailed    // signer recovery threw
    | BadAddress        // getAddress threw
    | CallFailed        // the isValidSignature call failed
    | InvalidMessage    // the siwe constructor rejected the exchanged message

  /** A verified token: its message and the account it stands for. */
  datatype Decoded = Decoded(message: Message, account: string)

  /** The message text a token carries, when it has a second segment. */
  function PayloadText(p: Platform, token: string): Option<string> {
    var segments := Token.Decode(token);
    if |segments| < 2 then None else Some(p.utf8Decode(segments[1]))
  }

  /** `decodeToken` for a server whose own address is `serverAddress`. */
  function DecodeToken(p: Platform, serverAddress: string, token: string): (r: Result<Decoded, ServerError>)
    ensures r == Failure(NoToken) <==> token == "" || |Segments.Split(token)| < 3
    ensures r != Failure(NoToken) ==>
              var segments := Token.Decode(token);
              r == VerifySegments(p, serverAddress, segments[0], segments[1], segments[2])
  {
    if token == "" then Failure(NoToken)
    else
      var segments := Token.Decode(token);
      if |segments| < 3 then Failure(NoToken)
      else VerifySegments(p, serverAddress, segments[0], segments[1], segments[2])
  }

  /**
   * The checks `decodeToken` makes once the token has three segments: the
   * header, then the message, then the signature by the path the message's
   * address selects.
   */
  function VerifySegments(p: Platform, serverAddress: string, header: seq<Byte>, payload: seq<Byte>,
                          signature: seq<Byte>): (r: Result<Decoded, ServerError>)
    ensures r != Failure(NoToken)
    ensures r.Success? ==>
              && p.parseHeader(p.utf8Decode(header)).Some?
              && Token.Accepted(p.parseHeader(p.utf8Decode(header)).value)
              && p.parseMessage(p.utf8Decode(payload)) == Some(r.value.message)
    ensures r.Success? && r.value.message.address == serverAddress ==>
              && p.recoverAddress(p.utf8Decode(payload), signature).Some?
              && SameAddress(p.recoverAddress(p.utf8Decode(payload), signature).value, serverAddress)
    ensures r.Success? && r.value.message.address != serverAddress ==>
              && p.getAddress(r.value.message.address) == Some(r.value.account)
              && p.isValidSignature(r.value.account, p.hashMessage(p.utf8Decode(payload)), signature)
                 == Some(MagicValue)
  {
    match p.parseHeader(p.utf8Decode(header))
    case None => Failure(MalformedHeader)
    case Some(h) =>
      if !Token.Accepted(h) then Failure(InvalidToken)
      else
        var text := p.utf8Decode(payload);
        match p.parseMessage(text)
        case None => Failure(MalformedMessage)
        case Some(message) =>
          if message.address == serverAddress then
            match p.recoverAddress(text, signature)
            case None => Failure(RecoveryFailed)
            case Some(signer) =>
              if !SameAddress(signer, message.address) then Failure(InvalidToken)
              else Success(Decoded(message, AttributedAccount(message.resources)))
          else
            match p.getAddress(message.address)
            case None => Failure(BadAddress)
            case Some(account) =>
              match p.isValidSignature(account, p.hashMessage(text), signature)
              case None => Failure(CallFailed)
              case Some(value) =>
                if value != MagicValue then Failure(InvalidToken)
                else Success(Decoded(message, account))
  }

  /** Whether the token's message parses and names `address`. */
  predicate Names(p: Platform, token: string, address: string) {
    PayloadText(p, token).Some?
    && p.parseMessage(PayloadText(p, token).value).Some?
    && p.parseMessage(PayloadText(p, token).value).value.address == address
  }

  /** A token naming the server is never put to the contract: the call's answer does not matter. */
  lemma OwnTokenMakesNoContractCall(p: Platform, serverAddress: string, token: string,
                                    isValidSignature: (string, seq<Byte>, seq<Byte>) -> Option<string>)
    requires Names(p, token, serverAddress)
    ensures DecodeToken(p.(isValidSignature := isValidSignature), serverAddress, token)
         == DecodeToken(p, serverAddress, token)
  {
  }

  /** A token naming any other address is never put to signer recovery. */
  lemma OtherTokenMakesNoRecovery(p: Platform, serverAddress: string, token: string,
                                  recoverAddress: (string, seq<Byte>) -> Option<string>)
    requires PayloadText(p, token).Some? && p.parseMessage(PayloadText(p, token).value).Some?
    requires !Names(p, token, serverAddress)
    ensures DecodeToken(p.(recoverAddress := recoverAddress), serverAddress, token)
         == DecodeToken(p, serverAddress, token)
  {
  }

  /**
   * On a message naming the server, the verdict is the recovery check alone:
   * success exactly when the recovered signer is the server, reporting the
   * account of the first account marker.
   */
  lemma OwnPathVerdict(p: Platform, serverAddress: string, header: seq<Byte>, payload: seq<Byte>,
                       signature: seq<Byte>, message: Message)
    requires p.parseHeader(p.utf8Decode(header)).Some? && Token.Accepted(p.parseHeader(p.utf8Decode(header)).value)
    requires p.parseMessage(p.utf8Decode(payload)) == Some(message) && message.address == serverAddress
    ensures var r := VerifySegments(p, serverAddress, header, payload, signature);
            var signer := p.recoverAddress(p.utf8Decode(payload), signature);
            && (r.Success? <==> signer.Some? && SameAddress(signer.value, serverAddress))
            && (r.Success? ==> r.value == Decoded(message, AttributedAccount(message.resources)))
            && (signer.Some? && !SameAddress(signer.value, serverAddress) ==> r == Failure(InvalidToken))
  {
  }

  /**
   * On a message naming any other address, the verdict is the contract call
   * alone: success exactly when the contract at the checksummed address
   * returns `0x1626ba7e`, reporting that address.
   */
  lemma ContractPathVerdict(p: Platform, serverAddress: string, header: seq<Byte>, payload: seq<Byte>,
                            signature: seq<Byte>, message: Message)
    requires p.parseHeader(p.utf8Decode(header)).Some? && Token.Accepted(p.parseHeader(p.utf8Decode(header)).value)
    requires p.parseMessage(p.utf8Decode(payload)) == Some(message) && message.address != serverAddress
    ensures var r := VerifySegments(p, serverAddress, header, payload, signature);
            var account := p.getAddress(message.address);
            && (r.Success? <==>
                  account.Some?
                  && p.isValidSignature(account.value, p.hashMessage(p.utf8Decode(payload)), signature) == Some(MagicValue))
            && (r.Success? ==> r.value == Decoded(message, account.value))
  {
  }

  /** A three-segment token whose header is not `{alg: "ES256K", typ: "JWT"}` is an invalid token. */
  lemma ForeignHeaderRejected(p: Platform, serverAddress: string, token: string)
    requires |Segments.Split(token)| >= 3
    requires p.parseHeader(p.utf8Decode(Token.Decode(token)[0])).Some?
    requires !Token.Accepted(p.parseHeader(p.utf8Decode(Token.Decode(token)[0])).value)
    ensures DecodeToken(p, serverAddress, token) == Failure(InvalidToken)
  {
  }

  /** Segments past the third are never read: appending more leaves the verdict unchanged. */
  lemma ExtraSegmentsIgnored(p: Platform, serverAddress: string, token: string, extra: string)
    requires |Segments.Split(token)| >= 3
    ensures DecodeToken(p, serverAddress, token + "." + extra) == DecodeToken(p, serverAddress, token)
  {
    Segments.SplitDot(token, extra);
    var a := Token.Decode(token);
    var b := Token.Decode(token + "." + extra);
    assert a[0] == b[0] && a[1] == b[1] && a[2] == b[2];
  }

  /** The audience `/exchange` writes: a template literal, so an unset variable reads "undefined". */
  function SiteUri(appDomain: Option<string>): string {
    "https://" + appDomain.GetOr("undefined")
  }

  /** The domain `/exchange` writes: the variable, or "" when it is unset. */
  function SiteDomain(appDomain: Option<string>): string {
    appDomain.GetOr("")
  }

  /**
   * The `/exchange` route: decode the bearer token, then issue a server token
   * for the site. `appDomain` is the `VITE_APP_DOMAIN` environment variable.
   */
  function ExchangeRoute(p: Platform, sign: string -> string, serverAddress: string, appDomain: Option<string>,
                         nonce: string, issuedClock: Timestamp, expiryClock: Timestamp, token: string)
    : (r: Result<Exchanged, ServerError>)
    ensures DecodeToken(p, serverAddress, token).Failure? ==>
              r == Failure(DecodeToken(p, serverAddress, token).error)
    ensures DecodeToken(p, serverAddress, token).Success? ==>
              (r == Failure(InvalidMessage)
               <==> !p.validMessage(ExchangeMessage(DecodeToken(p, serverAddress, token).value.message,
                                                    SiteUri(appDomain), nonce, SiteDomain(appDomain), serverAddress,
                                                    issuedClock, expiryClock)))
    ensures DecodeToken(p, serverAddress, token).Success? && r.Failure? ==> r.error == InvalidMessage
    ensures r.Success? ==>
              && DecodeToken(p, serverAddress, token).Success?
              && Some(r.value)
                 == ExchangeToken(p, sign, DecodeToken(p, serverAddress, token).value.message, SiteUri(appDomain),
                                  nonce, SiteDomain(appDomain), serverAddress, issuedClock, expiryClock)
              && r.value.message.address == serverAddress
              && r.value.message.uri == "https://" + (if appDomain.Some? then appDomain.value else "undefined")
              && r.value.message.domain == (if appDomain.Some? then appDomain.value else "")
              && r.value.message.nonce == nonce
  {
    match DecodeToken(p, serverAddress, token)
    case Failure(e) => Failure(e)
    case Success(decoded) =>
      match ExchangeToken(p, sign, decoded.message, SiteUri(appDomain), nonce, SiteDomain(appDomain), serverAddress,
                          issuedClock, expiryClock)
      case None => Failure(InvalidMessage)
      case Some(exchanged) => Success(exchanged)
  }
}

=== FILE: siwe.dfy ===
/**
 * The EIP-4361 ("Sign-In with Ethereum") login message as a record, and the
 * reading of its `resources` list that both sides use for provenance.
 */
module Siwe {
  import opened Wrappers

  /** Milliseconds since the Unix epoch; the ISO-8601 text is part of the message text format. */
  type Timestamp = int

  /** The fields of a `SiweMessage`; the optional ones are `None` when absent. */
  datatype Message = Message(
    scheme: Option<string>,
    domain: string,
    address: string,
    statement: Option<string>,
    uri: string,
    version: string,
    chainId: int,
    nonce: string,
    issuedAt: Timestamp,
    expirationTime: Option<Timestamp>,
    notBefore: Option<Timestamp>,
    requestId: Option<string>,
    resources: Option<seq<string>>)

  /** The resource marker that names the end-user account a message vouches for. */
  const AccountPrefix: string := "did:account:"

  /** The resource marker for a web origin, without the separating colon. */
  const WebPrefix: string := "did:web"

  predicate StartsWith(s: string, prefix: string) {
    |prefix| <= |s| && s[..|prefix|] == prefix
  }

  /** The resource list, an absent one read as empty (`resources || []`). */
  function ResourceList(resources: Option<seq<string>>): seq<string> {
    resources.GetOr([])
  }

  /** An account marker for `account`. */
  function AccountResource(account: string): (r: string)
    ensures StartsWith(r, AccountPrefix)
  {
    AccountPrefix + account
  }

  /** `rs.find(r => r.startsWith('did:account:'))`: the first account marker of the list. */
  function FirstAccountResource(rs: seq<string>): (r: Option<string>)
    ensures r.None? <==> forall i :: 0 <= i < |rs| ==> !StartsWith(rs[i], AccountPrefix)
    ensures r.Some? ==> exists i :: 0 <= i < |rs| && rs[i] == r.value && StartsWith(rs[i], AccountPrefix)
                          && forall j :: 0 <= j < i ==> !StartsWith(rs[j], AccountPrefix)
    decreases |rs|
  {
    if |rs| == 0 then None
    else if StartsWith(rs[0], AccountPrefix) then Some(rs[0])
    else
      var r := FirstAccountResource(rs[1..]);
      assert forall i :: 1 <= i < |rs| ==> rs[i] == rs[1..][i - 1];
      r
  }

  /**
   * The account a server token is attributed to: the first account marker
   * with its prefix removed, or "" when there is none.
   */
  function AttributedAccount(resources: Option<seq<string>>): (account: string)
    ensures FirstAccountResource(ResourceList(resources)).Some? ==>
              FirstAccountResource(ResourceList(resources)).value == AccountPrefix + account
    ensures FirstAccountResource(ResourceList(resources)).None? ==> account == ""
  {
    match FirstAccountResource(ResourceList(resources))
    case None => ""
    case Some(r) => r[|AccountPrefix|..]
  }

  /** Appending to a list never changes its first account marker once it has one. */
  lemma {:induction false} FirstAccountResourceAppend(rs: seq<string>, extra: seq<string>)
    ensures FirstAccountResource(rs + extra)
         == if FirstAccountResource(rs).Some? then FirstAccountResource(rs) else FirstAccountResource(extra)
    decreases |rs|
  {
    if |rs| == 0 {
      assert rs + extra == extra;
    } else {
      assert (rs + extra)[0] == rs[0];
      assert (rs + extra)[1..] == rs[1..] + extra;
      FirstAccountResourceAppend(rs[1..], extra);
    }
  }
}

=== FILE: token.dfy ===
/**
 * The JWT-shaped token: a header, the signed message text and the signature,
 * each base64url-encoded without padding and joined by '.', the layout of the
 * JWS compact serialization (section 7.1 of RFC 7515) except that only the
 * message text is signed.
 */
module Token {
  import opened Binary
  import opened Wrappers
  import Base64Url
  import Segments

  const Alg: string := "ES256K"
  const Typ: string := "JWT"

  /** The JSON text of the only header either side ever writes. */
  const HeaderJson: string := "{\"alg\":\"ES256K\",\"typ\":\"JWT\"}"

  /**
   * The two header members the verifiers read. A member that is absent or not
   * a string is `None`: it compares unequal to every string under `!==`.
   */
  datatype Header = Header(alg: Option<string>, typ: Option<string>)

  /** The header check both verifiers make, case-sensitive on both members. */
  predicate Accepted(h: Header)
    ensures Accepted(h) <==> h == Header(Some("ES256K"), Some("JWT"))
  {
    h.alg == Some(Alg) && h.typ == Some(Typ)
  }

  /** Three byte strings, each base64url-encoded, joined by '.'. */
  function Compact(header: seq<Byte>, payload: seq<Byte>, signature: seq<Byte>): string {
    Segments.Join([Base64Url.Encode(header), Base64Url.Encode(payload), Base64Url.Encode(signature)])
  }

  /** `token.split('.').map(base64url.toBuffer)`: one byte string per piece, however many pieces. */
  function Decode(token: string): (segments: seq<seq<Byte>>)
    ensures |segments| == |Segments.Split(token)|
  {
    var parts := Segments.Split(token);
    seq(|parts|, i requires 0 <= i < |parts| => Base64Url.ToBuffer(parts[i]))
  }

  /** Base64url text holds no '.', so it can be framed by dots. */
  lemma EncodedHasNoDot(b: seq<Byte>)
    ensures '.' !in Base64Url.Encode(b)
  {
  }

  /** A compact token splits back into its three encoded pieces. */
  lemma SplitCompact(header: seq<Byte>, payload: seq<Byte>, signature: seq<Byte>)
    ensures Segments.Split(Compact(header, payload, signature))
         == [Base64Url.Encode(header), Base64Url.Encode(payload), Base64Url.Encode(signature)]
  {
    EncodedHasNoDot(header);
    EncodedHasNoDot(payload);
    EncodedHasNoDot(signature);
    Segments.SplitJoin([Base64Url.Encode(header), Base64Url.Encode(payload), Base64Url.Encode(signature)]);
  }

  /**
   * Splitting a compact token and decoding its pieces gives back exactly the
   * three byte strings it was built from: base64url text never holds a '.'.
   */
  lemma DecodeCompact(header: seq<Byte>, payload: seq<Byte>, signature: seq<Byte>)
    ensures Decode(Compact(header, payload, signature)) == [header, payload, signature]
    ensures Compact(header, payload, signature) != ""
  {
    var token := Compact(header, payload, signature);
    SplitCompact(header, payload, signature);
    var parts := Segments.Split(token);
    Base64Url.ToBufferEncode(header);
    Base64Url.ToBufferEncode(payload);
    Base64Url.ToBufferEncode(signature);
    assert Decode(token)[0] == Base64Url.ToBuffer(parts[0]) == header;
    assert Decode(token)[1] == Base64Url.ToBuffer(parts[1]) == payload;
    assert Decode(token)[2] == Base64Url.ToBuffer(parts[2]) == signature;
  }
}

=== FILE: wrappers.dfy ===
/** `Option`, `Result` and the byte type shared by every module of the model. */
module Wrappers {

  /** A value that may be absent: JavaScript's `undefined`, or a library call that threw. */
  datatype Option<+T> = None | Some(value: T) {

    /** The value, or `default` when absent (JavaScript's `x || default` on a truthy `x`). */
    function GetOr(default: T): T {
      match this
      case Some(v) => v
      case None => default
    }
  }

  /** The outcome of an operation that either returns a value or throws an error. */
  datatype Result<+T, +E> = Success(value: T) | Failure(error: E)
}

module Binary {

  /** One octet, as held in a Node `Buffer`. */
  type Byte = b: int | 0 <= b < 256
}
